=== FILE: README.md ===
# AI-service community front end: the page rules, modelled in Dafny

The front end is a set of browser pages. They let users browse AI-service listings, keep favorites, review services and chat in topic rooms. All data lives on a hosted platform: authentication, a relational store and realtime change feeds. The pages hold no protocol or storage logic of their own. What they do hold is a small number of sequential rules. This project states those rules as pure Dafny functions over immutable datatypes and proves properties about them. Every remote call's reply (a read, an insert, a session lookup, a throw) is an input parameter.

Modules, one per source file or shared concept:

- `Wrappers`: `Option` (JavaScript `null`/`undefined`) and `Remote` (an awaited call that returned or threw).
- `JsText`: the JavaScript idioms the rules depend on:
  - `||` over possibly-empty strings, where the empty string is falsy;
  - `String.prototype.trim` with the ECMAScript whitespace set;
  - `email.split('@')[0]`;
  - the decimal rendering of a number inside a template literal.
- `Identity`: the signed-in user as the auth service returns it.
- `ProfileStore`: the `profiles` table as an abstract store. It holds one row per id, usernames are unique, and a conflicting insert is rejected with SQLSTATE `23505`.
- `ProfileHelper`: the shared `ensureProfile` (lib/profile-helper.ts).
- `RoomQuery`: the `messages` table and the chat history query. It keeps one room's rows, sorts them ascending by creation time and caps the result at 100 rows.
- `Chat`: the chat page. It covers the view state, room switching, history load, live insert events, sending, the page's local `ensureProfile`, and the date-banner rule.
- `AuthCallback`: the social-login callback. It decides the redirect and inserts a profile when the user has none.
- `Categories`: the category-to-colour table shared by the profile and services pages.
- `ProfilePage`: loading the user's data, username editing, favorite removal, and the star display.
- `ServicesPage`: loading the listings, and what a service card shows.

Behaviour worth knowing:

- When the history load fails, the code leaves the message list as it was. It does not empty it. Right after a room switch the list is already empty, so the visible result is the same.
- The history query sorts ascending and then takes 100 rows. That loads a room's oldest 100 messages, not its most recent (see Findings).
- The shared helper reads only `user_metadata.username` before falling back to the email's local part. The callback page is the one that reads the display-name keys `full_name` and then `name`.
- Nothing in the page makes the message list duplicate-free or keeps another room's events out of it. Neither property is claimed here.

## Model

| member | source | states |
|---|---|---|
| `JsText.OrChainIsFirstNonEmpty` | lib/profile-helper.ts:17-20 | a left-to-right JavaScript or-chain ending in a non-empty literal yields the first non-empty candidate, or the literal when every candidate is empty or missing |
| `JsText.LocalPart` | lib/profile-helper.ts:19 | the email local part has no `@`, is a prefix of the email, is the whole email when there is no `@`, and otherwise stops right at the first `@` |
| `JsText.Trim` | app/chat/page.tsx:135-137 | the trimmed text is a contiguous piece of the input whose first and last characters are not whitespace, and everything before and after it is whitespace; it is empty exactly when the input is all whitespace |
| `JsText.TrimIdempotent` | app/profile/page.tsx:122 | trimming an already trimmed text changes nothing |
| `JsText.DecimalRoundTrip` | lib/profile-helper.ts:40 | the digits appended to the retry username read back as the suffix |
| `Identity.MetadataField` | lib/profile-helper.ts:18 | optional chaining into `user_metadata` yields a value only when the user, the metadata object and the key are all present |
| `ProfileStore.Lookup` | lib/profile-helper.ts:5-9 | the lookup by id yields the id exactly when a row for it exists |
| `ProfileStore.Insert` | lib/profile-helper.ts:22-34 | an insert whose id or username is taken fails with code 23505 and changes nothing; any other insert stores the row, echoes it back and keeps every existing row |
| `ProfileStore.ApplyInsertsKeepsUsernamesUnique` | lib/profile-helper.ts:22-45 | any sequence of inserts keeps usernames unique across the table |
| `ProfileHelper.DefaultUsername` | lib/profile-helper.ts:16-20 | the default username is never empty; it is the first non-empty value among the explicit argument, `user_metadata.username` and the email local part, otherwise `'user'` |
| `ProfileHelper.EnsureProfile` | lib/profile-helper.ts:3-50 | an existing row is returned with no insert. Otherwise the first insert is `(userId, default username)`. A second insert happens exactly when the first failed with code 23505; it keeps the id and appends the suffix digits, so the name differs. There are never more than two inserts, and the last insert's data is returned as it is, even when null |
| `ProfileHelper.RetryUsernameShape` | lib/profile-helper.ts:35-41 | a suffix drawn from 0..9998 renders as one to four digits that read back as the suffix |
| `ProfileHelper.RunAgainstStore` | lib/profile-helper.ts:22-49 | run against the table, the helper leaves a row for the user exactly when it returns a profile, keeps usernames unique and never alters another row |
| `ProfileHelper.SecondCallWritesNothing` | lib/profile-helper.ts:5-13 | after a call that returned a profile, a second call finds the row and inserts nothing |
| `ProfileHelper.LostRaceReturnsNull` | lib/profile-helper.ts:31-45 | if another caller created the row between lookup and insert, both inserts fail on the id and the helper returns null, leaving exactly the other caller's row |
| `ProfileHelper.UsernameCollisionRetriesWithSuffix` | lib/profile-helper.ts:33-45 | when only the default username is taken and the suffixed name is free, the user is stored under the suffixed name |
| `RoomQuery.InRoom` | app/chat/page.tsx:119 | the room filter keeps every row of the room as often as it occurs in the table, and no row of any other room |
| `RoomQuery.SortByTime` | app/chat/page.tsx:120 | the ordering step returns a permutation of its input, ascending by creation time |
| `RoomQuery.RoomPage` | app/chat/page.tsx:113-121 | the page's history query returns only rows of the room, ascending, as many as the room holds up to 100, drawn from the room's rows without duplication, and no row newer than a room message it left out |
| `RoomQuery.OldestPageMissesNewest` | app/chat/page.tsx:119-121 | as written, once a room holds more than 100 messages its unique newest message is not loaded |
| `RoomQuery.LatestRoomPage` | app/chat/page.tsx:119-121 | the corrected query returns only rows of the room, ascending, up to 100, and no row older than a room message it left out |
| `RoomQuery.LatestPageHasNewest` | app/chat/page.tsx:119-121 | the corrected query always loads a room's newest message |
| `Chat.FindRoom` | app/chat/page.tsx:233-236 | the header shows the first listed room with the current id, or nothing when no room has it |
| `Chat.SideBarRoomsResolve` | app/chat/page.tsx:27-36 | the room the page mounts with and every room a side-bar button selects are found by the header lookup, which shows that very room |
| `Chat.ChatUsername` | app/chat/page.tsx:49 | the local variant names a new profile after the email's local part, or `'User'` when that is empty or missing |
| `Chat.EnsureProfileLocal` | app/chat/page.tsx:38-60 | at most one insert, made exactly when the lookup returned no row, under the user's id and the local-part name; a thrown lookup leads to no insert and no error |
| `Chat.EnsureProfileLocalAgainstStore` | app/chat/page.tsx:41-56 | against the table, an existing row prevents any write, a free id and name lead to the row being stored, and no existing row changes |
| `Chat.ChangeRoom` | app/chat/page.tsx:167-171 | switching room selects it, empties the list, turns the spinner on and keeps the draft |
| `Chat.Backfill` | app/chat/page.tsx:111-130 | a successful load replaces the list wholesale, or empties it when the data is null; a failed load leaves the list as it was; the spinner ends off either way |
| `Chat.BackfillShowsCurrentRoom` | app/chat/page.tsx:113-124 | a load fed by the page's query shows only the current room's messages, oldest first |
| `Chat.WithId` | app/chat/page.tsx:92 | the id filter keeps every row carrying the id, as often as the table holds it, and no other row |
| `Chat.FetchJoined` | app/chat/page.tsx:86-93 | the single-row fetch of an event's message yields data exactly when one row has that id, and the data is that row |
| `Chat.OnInsertEvent` | app/chat/page.tsx:84-97 | an event with fetched data appends it at the tail and leaves every earlier entry unchanged; an event without data is dropped |
| `Chat.EventAppendsFetchedRow` | app/chat/page.tsx:84-97 | an insert event appends the row its fetch finds when exactly one row has the id, and a row that is alone with its id is appended itself; any other fetch leaves the view as it was |
| `Chat.ApplyEventsAppends` | app/chat/page.tsx:95-97 | any run of events leaves the list equal to its old contents followed by the delivered messages in arrival order |
| `Chat.SelectBackfillThenEvents` | app/chat/page.tsx:84-130 | after a room switch, a history reply and a run of events, the list is the history rows, or nothing if the load failed, followed by the delivered messages, with the spinner off |
| `Chat.SendMessage` | app/chat/page.tsx:132-161 | nothing happens for an all-whitespace draft or when signed out. Otherwise the trimmed text is inserted into the current room under the user's id. The draft is cleared, and the trimmed text is restored when the insert fails or throws. Nothing is appended to the list locally |
| `Chat.ResendAfterFailureRepeatsInsert` | app/chat/page.tsx:156-160 | after a failed send, sending the restored draft issues the very same message insert |
| `Chat.ShowDate` | app/chat/page.tsx:253-254 | the first message always gets a banner; any later one gets a banner exactly when its day label differs from its predecessor's |
| `Chat.BannerFor` | app/chat/page.tsx:253-262 | the banner above a message is the nearest shown banner at or above it, with no banner between the two |
| `Chat.BannerMatchesDay` | app/chat/page.tsx:253-254 | every message sits under a banner showing its own day label |
| `Chat.SuccessiveBannersDiffer` | app/chat/page.tsx:253-254 | a banner after the first never repeats the label of the banner before it |
| `Chat.MessageUnderItsDay` | app/chat/page.tsx:252-261 | over the rendered list, each message's banner sits at or above it, shows the message's own day, and differs from the day of the message right before the banner |
| `AuthCallback.CallbackUsername` | app/auth/callback/page.tsx:31-34 | the callback username is never empty: the first non-empty value among `full_name`, `name` and the email's local part, otherwise `'User'` |
| `AuthCallback.HandleCallback` | app/auth/callback/page.tsx:11-52 | a session error, a missing session user, a thrown session read or a thrown profile lookup leads to `/auth` with no write. A profile is inserted only when the lookup found none. With a session user and no throw, the redirect is `/` |
| `AuthCallback.CallbackIdempotent` | app/auth/callback/page.tsx:21-44 | a user who already has a row goes home with no write, and a callback after one that created the row writes nothing |
| `Categories.CategoryColor` | app/profile/page.tsx:164-175 | a listed category gets its table entry; any other category gets the `その他` colour |
| `Categories.GreyIffUnlisted` | app/services/page.tsx:43-54 | the grey badge appears exactly for `その他` and unlisted categories, because every listed category has a colour of its own |
| `Categories.IndexObjectLiteral` | app/profile/page.tsx:165-174 | indexing the object literal yields an own entry for listed categories, an inherited built-in for `Object.prototype` member names, and `undefined` otherwise |
| `Categories.CategoryColorAsWritten` | app/profile/page.tsx:174 | as written, the lookup returns an inherited built-in exactly for unlisted `Object.prototype` member names |
| `Categories.AsWrittenDiffersOnPrototypeNames` | app/services/page.tsx:53 | the as-written and corrected lookups agree except on `Object.prototype` member names, for example `toString` |
| `ProfilePage.FetchUserData` | app/profile/page.tsx:60-113 | signed out, nothing changes. Otherwise the spinner ends off. A found profile also fills the edit field. Null favorite or review lists become empty lists. A throw in any read leaves every field that read and the later ones would set as it was |
| `ProfilePage.LoadThenCancelEdit` | app/profile/page.tsx:60-113 | a full load on a fresh page shows exactly the profile, favorites and reviews returned; starting an edit, typing anything and cancelling then gets back exactly the loaded page |
| `ProfilePage.FetchUserDataIdempotent` | app/profile/page.tsx:60-113 | loading again with the same replies changes nothing |
| `ProfilePage.StartEdit` | app/profile/page.tsx:275 | the edit button turns edit mode on and changes nothing else |
| `ProfilePage.TypeUsername` | app/profile/page.tsx:250 | typing puts the new text in the field and changes nothing else |
| `ProfilePage.TypeAll` | app/profile/page.tsx:250 | a run of keystrokes changes only the field, which ends with the last text typed |
| `ProfilePage.CancelEdit` | app/profile/page.tsx:261-264 | cancelling leaves edit mode, resets the field to the stored username and changes nothing else |
| `ProfilePage.CancelDiscardsTyping` | app/profile/page.tsx:245-269 | start, any typing, then cancel is the same as cancelling straight away |
| `ProfilePage.UpdateUsername` | app/profile/page.tsx:115-146 | signed out or an all-whitespace field, nothing happens. Otherwise the update writes the trimmed field under the user's id. Edit mode ends and the page reloads exactly when the update and the re-read both succeed; the re-read row, when one comes back, becomes the profile, and nothing else changes. A failure only ends the `updating` flag |
| `ProfilePage.UpdatedNameIsTrimmed` | app/profile/page.tsx:116-122 | the written username is non-empty, has no surrounding whitespace and is unchanged by a second trim |
| `ProfilePage.WithoutService` | app/profile/page.tsx:158 | the filtered list holds exactly the favorites whose service id differs from the argument |
| `ProfilePage.WithoutServiceKeepsOrder` | app/profile/page.tsx:158 | removal distributes over concatenation, so the relative order of kept favorites is preserved |
| `ProfilePage.WithoutServiceIdempotent` | app/profile/page.tsx:158 | removing a service's favorites twice is the same as removing them once |
| `ProfilePage.RemoveFavorite` | app/profile/page.tsx:148-162 | signed out, nothing happens. Otherwise the delete is issued. Unless the delete threw, the local list becomes the order-keeping filter of that service's favorites and nothing else changes; a returned error is not inspected |
| `ProfilePage.RemoveFavoriteTwice` | app/profile/page.tsx:148-162 | after a removal that went through, removing the same service again changes nothing, and the remaining favorites keep their order |
| `ProfilePage.Stars` | app/profile/page.tsx:366-373 | there are five stars, and star `i` is lit exactly when `i` is below the rating |
| `ProfilePage.LitStarsIsClampedRating` | app/profile/page.tsx:366-373 | the number of lit stars is the rating clamped to 0..5 |
| `ProfilePage.FavoriteColor` | app/profile/page.tsx:323 | a favorite's badge uses its service category's table colour, and the grey `その他` class for any category the table does not list |
| `ServicesPage.FetchServices` | app/services/page.tsx:27-41 | a failed read keeps the list; null data empties it; the spinner ends off either way |
| `ServicesPage.LoadThenRender` | app/services/page.tsx:27-141 | after a load, the page shows the empty notice exactly when the read returned null or no rows or failed while the list was empty (always so on a fresh page), and otherwise one card per returned service in order |
| `ServicesPage.FeatureBlock` | app/services/page.tsx:100-106 | the feature block appears only for a non-empty list and shows its first `min(3, n)` features in order |
| `ServicesPage.RenderCard` | app/services/page.tsx:90-137 | a card shows the category colour and the feature block. The edit link is present exactly when signed in. The detail link points at the service |
| `ServicesPage.Render` | app/services/page.tsx:68-141 | the add link is present exactly when signed in; the body is the spinner while loading, the empty notice for no services, and otherwise one card per service in order |
| `ServicesPage.LinksFollowSignIn` | app/services/page.tsx:68-128 | every card's edit link appears exactly when the page's add link does |

## Left out

- Every call into the hosted platform: reads, inserts, updates, deletes, `auth.getUser`, `getSession` and `signOut`. Each reply is a parameter. The `profiles` table is also given as an abstract store, so store-level properties can be stated.
- The realtime channel's lifecycle: subscribing, `removeChannel` on cleanup, and the race between subscribing and the history load. These are asynchronous interleavings outside a sequential model. Whether events are filtered by room is up to the platform. The model makes no duplicate-freedom or cross-room claim.
- Intermediate states while a call is awaited. Two examples: the empty draft while a send is in flight, and the `updating` flag during an update. Only the state after each operation completes is modelled. Text typed during a send is overwritten by the restore and is not modelled.
- `Math.random`: the suffix is a parameter in 0..9998.
- Date and time formatting (`formatTime`, `formatDate`, `toLocaleDateString`): each message gets an abstract day label from a day function of its timestamp. Timestamps are abstract integers. The store leaves ties in ordering unspecified, and the model's sort picks one order.
- Router redirects are returned as a destination value. `alert`, `window.location.reload` (returned as a flag), `scrollToBottom`, and all JSX and styling beyond which links and blocks appear are not modelled.
- Exceptions thrown inside the shared helper: it has no `try`, so a throw propagates to its caller and the helper produces nothing.
- Identity.MetadataField: metadata values are modelled as strings. A non-string JSON value under `username`, `full_name` or `name` is not modelled.
- ProfilePage.FavoriteColor: uses the corrected `Categories.CategoryColor`. For a category named after an `Object.prototype` member, such as `toString`, it gives the grey class, while the page as written renders the inherited built-in (see Findings and `Categories.CategoryColorAsWritten`).
- ServicesPage.RenderCard: the card colour uses the corrected `Categories.CategoryColor` in the same way. The page as written (app/services/page.tsx:95) renders the inherited built-in for `Object.prototype` member names.
- ProfilePage.Stars: the rating is modelled as an integer. A fractional JavaScript number is not modelled; 3.5, for instance, would light four stars.
- app/page.tsx is not part of this model. Its `username || email` local-part display is covered by `JsText.LocalPart`.
- app/services/[id]/page.tsx and app/services/edit/[id]/page.tsx are not part of this model.

## Findings

| source | as written | input that shows it | evidently intended | confidence | as-written member | corrected member |
|---|---|---|---|---|---|---|
| app/chat/page.tsx:119-121 | the history query sorts ascending by creation time and then keeps the first 100 rows, so it loads a room's oldest 100 messages | a room holding 101 messages with distinct timestamps: the newest message is not shown after switching to the room | the most recent 100 messages, shown oldest first | medium; not executed | `RoomQuery.OldestPageMissesNewest` | `RoomQuery.LatestPageHasNewest` |
| app/profile/page.tsx:174 | the colour lookup indexes a plain object literal, so a category named after an `Object.prototype` member yields that inherited built-in, which is truthy and wins over the fallback; services page line 53 is identical | the category `toString` | the `その他` grey colour for every unlisted category | low (categories come from the services table); not executed | `Categories.AsWrittenDiffersOnPrototypeNames` | `Categories.CategoryColor` |

The chat view operations (`Chat.Backfill` and the event handler) take the history rows as a parameter, so they hold for either query. `Chat.BackfillShowsCurrentRoom` states what the page's query as written delivers; `RoomQuery.RoomPage` and `RoomQuery.LatestRoomPage` carry the page properties of the written and the corrected query. The pages' colour badges use the corrected `Categories.CategoryColor`.

=== FILE: auth_callback.dfy ===
/** The social-login callback: read the session, provision a profile when the
    signed-in user has none, and choose where to send the browser. */
module AuthCallback {
  import opened Wrappers
  import opened Identity
  import opened JsText
  import opened ProfileStore

  /** Where the callback redirects: `/` or `/auth`. */
  datatype Destination = Home | SignIn

  /** The `{ data: { session }, error }` reply of `auth.getSession()`;
      `user` is `session?.user`. */
  datatype SessionReply = SessionReply(user: Option<AuthUser>, error: bool)

  /** The redirect chosen and the profile rows the callback asked the store to insert. */
  datatype CallbackOutcome = CallbackOutcome(destination: Destination, inserts: seq<ProfileRow>)

  /** `full_name || name || email.split('@')[0] || 'User'`; the metadata
      object itself must be present (it is read without `?.`). */
  function CallbackUsername(user: AuthUser): (r: string)
    requires user.metadata.Some?
    ensures r != ""
    ensures r == FirstNonEmpty([MetadataField(Some(user), "full_name"), MetadataField(Some(user), "name"),
                                EmailLocalPart(user.email)], "User")
  {
    var first := MetadataField(Some(user), "full_name");
    var rest := [MetadataField(Some(user), "name"), EmailLocalPart(user.email)];
    OrChainIsFirstNonEmpty(first, rest, "User");
    assert [first] + rest == [first, MetadataField(Some(user), "name"), EmailLocalPart(user.email)];
    OrFold(first, rest, "User")
  }

  /** `handleCallback` with the remote replies injected: the session read,
      the profile lookup and the profile insert (whose data is ignored; only
      a throw matters). A throw anywhere, or reading `full_name` off a missing
      metadata object, lands in the catch block. */
  function HandleCallback(session: Remote<SessionReply>, lookup: Remote<Option<UserId>>, insert: Remote<()>): (o: CallbackOutcome)
    // a session error, no session user, or a throw before any write: sign-in page, no write
    ensures session.Threw? || session.value.error || session.value.user.None? ==> o == CallbackOutcome(SignIn, [])
    ensures o.destination == Home ==> session.Returned? && !session.value.error && session.value.user.Some?
    // a profile is inserted only when the lookup found none, under the user's id and fallback name
    ensures |o.inserts| <= 1
    ensures |o.inserts| == 1 <==>
      session.Returned? && !session.value.error && session.value.user.Some?
      && lookup == Returned(None) && session.value.user.value.metadata.Some?
    ensures |o.inserts| == 1 ==>
      o.inserts[0] == ProfileRow(session.value.user.value.id, CallbackUsername(session.value.user.value))
    // a thrown profile lookup lands in the catch block: sign-in page, no write
    ensures session.Returned? && lookup.Threw? ==> o == CallbackOutcome(SignIn, [])
    // with a session user and no throw, the redirect is always home
    ensures session.Returned? && !session.value.error && session.value.user.Some? && lookup.Returned? ==>
      (o.destination == Home <==> lookup.value.Some? || (session.value.user.value.metadata.Some? && insert.Returned?))
  {
    match session
    case Threw => CallbackOutcome(SignIn, [])
    case Returned(reply) =>
      if reply.error then CallbackOutcome(SignIn, [])
      else if reply.user.None? then CallbackOutcome(SignIn, [])
      else
        var user := reply.user.value;
        match lookup
        case Threw => CallbackOutcome(SignIn, [])
        case Returned(Some(_)) => CallbackOutcome(Home, [])
        case Returned(None) =>
          if user.metadata.None? then CallbackOutcome(SignIn, [])
          else
            var row := ProfileRow(user.id, CallbackUsername(user));
            match insert
            case Threw => CallbackOutcome(SignIn, [row])
            case Returned(_) => CallbackOutcome(Home, [row])
  }

  /** Run against the profiles table: a user who already has a row is sent
      home with no write; a second callback after a first one that created the
      row writes nothing. */
  lemma CallbackIdempotent(store: Store, user: AuthUser)
    ensures var o := HandleCallback(Returned(SessionReply(Some(user), false)), Returned(Lookup(store, user.id)), Returned(()));
      && (user.id in store ==> o == CallbackOutcome(Home, []))
      && var s' := ApplyInserts(store, o.inserts);
         (user.id in s' ==> HandleCallback(Returned(SessionReply(Some(user), false)), Returned(Lookup(s', user.id)), Returned(())).inserts == [])
  {
  }
}

=== FILE: categories.dfy ===
/** The category-to-badge-colour table shared, verbatim, by the profile and
    services pages, and its lookup `colors[category] || colors['その他']`. */
module Categories {

  /** The catch-all category. */
  const Other: string := "その他"

  /** The table's entries as written. */
  const Colors: map<string, string> := map[
    "テキスト生成" := "bg-blue-100 text-blue-800",
    "画像生成" := "bg-purple-100 text-purple-800",
    "音声処理" := "bg-green-100 text-green-800",
    "音楽生成" := "bg-pink-100 text-pink-800",
    "コード生成" := "bg-orange-100 text-orange-800",
    "Webアプリ開発" := "bg-indigo-100 text-indigo-800",
    Other := "bg-gray-100 text-gray-800"
  ]

  /** The catch-all category's grey badge. */
  const OtherColor: string := Colors[Other]

  /** The lookup with own-property semantics: a listed category gets its
      entry, anything else the catch-all colour. */
  function CategoryColor(category: string): (r: string)
    ensures category in Colors ==> r == Colors[category]
    ensures category !in Colors ==> r == OtherColor
    ensures r in Colors.Values
  {
    if category in Colors && Colors[category] != "" then Colors[category] else Colors[Other]
  }

  /** A badge is grey exactly when the category is the catch-all or not listed;
      every listed category keeps a colour of its own. */
  lemma GreyIffUnlisted(category: string)
    ensures CategoryColor(category) == OtherColor <==> category == Other || category !in Colors
    ensures forall a, b :: a in Colors && b in Colors && a != b ==> Colors[a] != Colors[b]
  {
  }

  // ---------------------------------------------------------------------------
  // The lookup as the pages write it: indexing a plain object literal

  /** Names every plain object inherits from `Object.prototype`. */
  const PrototypeMembers: set<string> := {
    "constructor", "hasOwnProperty", "isPrototypeOf", "propertyIsEnumerable",
    "toLocaleString", "toString", "valueOf", "__proto__",
    "__defineGetter__", "__defineSetter__", "__lookupGetter__", "__lookupSetter__"
  }

  /** What `colors[category]` evaluates to on an object literal. */
  datatype Indexed = OwnEntry(s: string) | Inherited(name: string) | Undefined

  function IndexObjectLiteral(category: string): (r: Indexed)
    ensures category in Colors ==> r == OwnEntry(Colors[category])
    ensures category !in Colors && category in PrototypeMembers ==> r == Inherited(category)
    ensures r.Undefined? <==> category !in Colors && category !in PrototypeMembers
  {
    if category in Colors then OwnEntry(Colors[category])
    else if category in PrototypeMembers then Inherited(category)
    else Undefined
  }

  /** `colors[category] || colors['その他']` as written: inherited members are
      functions or objects, hence truthy, and win over the fallback. */
  function CategoryColorAsWritten(category: string): (r: Indexed)
    ensures r.OwnEntry? ==> r.s in Colors.Values
    ensures r.Inherited? <==> category !in Colors && category in PrototypeMembers
  {
    match IndexObjectLiteral(category)
    case OwnEntry(s) => if s != "" then OwnEntry(s) else OwnEntry(Colors[Other])
    case Inherited(name) => Inherited(name)
    case Undefined => OwnEntry(Colors[Other])
  }

  /** The two agree on every category except the inherited member names,
      where the page yields a function instead of the grey class string. */
  lemma AsWrittenDiffersOnPrototypeNames(category: string)
    ensures category !in PrototypeMembers ==> CategoryColorAsWritten(category) == OwnEntry(CategoryColor(category))
    ensures CategoryColorAsWritten("toString") == Inherited("toString")
    ensures CategoryColor("toString") == OtherColor
  {
  }
}

=== FILE: chat.dfy ===
/** The chat page's view state and the rules that change it: switching room,
    applying the history query's reply, appending a live insert event, sending
    a draft, and the page's own copy of `ensureProfile`. Also the date-banner
    rule of the message list. */
module Chat {
  import opened Wrappers
  import opened Identity
  import opened JsText
  import opened ProfileStore
  import opened RoomQuery

  /** What the page holds: the selected room, the rendered messages, the
      spinner flag and the input box's text. */
  datatype ChatView = ChatView(room: RoomId, messages: seq<ChatMessage>, loading: bool, draft: string)

  /** A chat room of the side bar. */
  datatype Room = Room(id: RoomId, name: string, description: string)

  const InitialRoom: RoomId := "general"

  /** The page's fixed room list, in side-bar order. */
  const Rooms: seq<Room> := [
    Room("general", "全体チャット", "AIについて自由に話しましょう"),
    Room("chatgpt", "ChatGPT", "ChatGPTについての議論"),
    Room("claude", "Claude", "Claudeについての議論"),
    Room("midjourney", "Midjourney", "画像生成AIについて"),
    Room("news", "AI最新情報", "最新のAIニュースを共有")
  ]

  /** The state the page mounts with. */
  function InitialView(): (v: ChatView)
    ensures v.room == InitialRoom && v.messages == [] && v.loading && v.draft == ""
  {
    ChatView(InitialRoom, [], true, "")
  }

  /** `chatRooms.find(r => r.id === room)`: the first room with that id. */
  function FindRoom(rooms: seq<Room>, room: RoomId): (r: Option<Room>)
    ensures r.None? <==> forall i :: 0 <= i < |rooms| ==> rooms[i].id != room
    ensures r.Some? ==> r.value.id == room
    ensures r.Some? ==> (exists i :: 0 <= i < |rooms| && rooms[i] == r.value &&
                                     (forall j :: 0 <= j < i ==> rooms[j].id != room))
  {
    if |rooms| == 0 then None
    else if rooms[0].id == room then Some(rooms[0])
    else
      var r := FindRoom(rooms[1..], room);
      assert forall i :: 1 <= i < |rooms| ==> rooms[i] == rooms[1..][i - 1];
      r
  }

  /** The header resolves the room the page mounts with, and every side-bar
      button selects a room the header then shows by name. */
  lemma SideBarRoomsResolve(v: ChatView)
    ensures FindRoom(Rooms, InitialView().room) == Some(Rooms[0])
    ensures forall i :: 0 <= i < |Rooms| ==> FindRoom(Rooms, ChangeRoom(v, Rooms[i].id).room) == Some(Rooms[i])
  {
    forall i | 0 <= i < |Rooms|
      ensures FindRoom(Rooms, Rooms[i].id) == Some(Rooms[i])
    {
      var r := FindRoom(Rooms, Rooms[i].id);
      var k :| 0 <= k < |Rooms| && Rooms[k] == r.value && (forall j :: 0 <= j < k ==> Rooms[j].id != Rooms[i].id);
      assert k == i;
    }
  }

  // ---------------------------------------------------------------------------
  // Profile provisioning, the page's local variant

  /** Username the chat page gives a new profile: the email's local part, or
      `'User'` when that is empty or missing. */
  function ChatUsername(email: Option<string>): (r: string)
    ensures r != ""
    ensures r == FirstNonEmpty([EmailLocalPart(email)], "User")
  {
    OrChainIsFirstNonEmpty(EmailLocalPart(email), [], "User");
    OrFold(EmailLocalPart(email), [], "User")
  }

  /** The local `ensureProfile(userId)`: inserts only when the lookup returned
      no row; every failure, thrown or returned, is swallowed. Returns the rows
      it asked the store to insert. `email` is the signed-in user's email. */
  function EnsureProfileLocal(userId: UserId, email: Option<string>, lookup: Remote<Option<UserId>>): (inserts: seq<ProfileRow>)
    ensures |inserts| <= 1
    ensures |inserts| == 1 <==> lookup == Returned(None)
    ensures |inserts| == 1 ==> inserts[0] == ProfileRow(userId, ChatUsername(email))
  {
    match lookup
    case Threw => []
    case Returned(Some(_)) => []
    case Returned(None) => [ProfileRow(userId, ChatUsername(email))]
  }

  /** Against one state of the profiles table, the local variant leaves a row
      for the user whenever the lookup saw none and neither the id nor the
      username was taken, and never alters an existing row. */
  lemma EnsureProfileLocalAgainstStore(store: Store, userId: UserId, email: Option<string>)
    ensures var ins := EnsureProfileLocal(userId, email, Returned(Lookup(store, userId)));
      && (userId in store ==> ins == [])
      && (userId !in store && ChatUsername(email) !in store.Values ==>
            userId in ApplyInserts(store, ins) && ApplyInserts(store, ins)[userId] == ChatUsername(email))
      && (forall id :: id in store ==> id in ApplyInserts(store, ins) && ApplyInserts(store, ins)[id] == store[id])
  {
    var ins := EnsureProfileLocal(userId, email, Returned(Lookup(store, userId)));
    ApplyInsertsKeepsRows(store, ins);
    if userId !in store {
      assert ApplyInserts(store, ins) == ApplyInserts(Insert(store, ins[0]).1, []);
    }
  }

  // ---------------------------------------------------------------------------
  // View transitions

  /** `changeRoom(room)`: select the room, empty the list, show the spinner. */
  function ChangeRoom(v: ChatView, room: RoomId): (r: ChatView)
    ensures r.room == room && r.messages == [] && r.loading
    ensures r.draft == v.draft
  {
    v.(room := room, messages := [], loading := true)
  }

  /** `fetchMessages` given the history query's reply (`Threw` covers both a
      returned error, which the page re-throws, and a thrown one). */
  function Backfill(v: ChatView, reply: Remote<Option<seq<ChatMessage>>>): (r: ChatView)
    ensures !r.loading
    ensures r.room == v.room && r.draft == v.draft
    // success replaces the list wholesale; null data yields an empty list
    ensures reply.Returned? && reply.value.Some? ==> r.messages == reply.value.value
    ensures reply.Returned? && reply.value.None? ==> r.messages == []
    // failure leaves the list as it was
    ensures reply.Threw? ==> r.messages == v.messages
  {
    match reply
    case Threw => v.(loading := false)
    case Returned(data) => v.(messages := data.GetOr([]), loading := false)
  }

  /** `.eq('id', id).single()` on the joined messages: the row when exactly one
      row has the id, otherwise no data. */
  function FetchJoined(table: seq<ChatMessage>, id: string): (r: Option<ChatMessage>)
    ensures r.Some? ==> r.value in table && r.value.id == id
    ensures r.Some? <==> |WithId(table, id)| == 1
  {
    var rows := WithId(table, id);
    if |rows| == 1 then Some(rows[0]) else None
  }

  /** `.eq('id', id)`: every row carrying the id, as often as the table holds
      it, and no other row. */
  function WithId(table: seq<ChatMessage>, id: string): (r: seq<ChatMessage>)
    ensures forall m :: m in r ==> m in table && m.id == id
    ensures forall x :: multiset(r)[x] == if x.id == id then multiset(table)[x] else 0
  {
    if |table| == 0 then []
    else
      var rest := WithId(table[1..], id);
      assert table == [table[0]] + table[1..];
      if table[0].id == id then [table[0]] + rest else rest
  }

  /** A table holding exactly one row with an id, once, answers the id
      filter with that row alone. */
  lemma {:induction false} OnlyRowWithId(table: seq<ChatMessage>, m: ChatMessage)
    requires multiset(table)[m] == 1
    requires forall x :: x in table && x.id == m.id ==> x == m
    ensures WithId(table, m.id) == [m]
  {
    var r := WithId(table, m.id);
    forall x
      ensures multiset(r)[x] == multiset{m}[x]
    {
      if x != m && x.id == m.id {
        assert x !in table;
      }
    }
    assert multiset(r) == multiset{m};
    assert |r| == |multiset(r)| == 1;
    assert r[0] in multiset(r);
  }

  /** The event handler fed by its own fetch: a new row that is the only one
      with its id is appended; an id that matches no row, or several, leaves
      the view as it was. */
  lemma EventAppendsFetchedRow(v: ChatView, table: seq<ChatMessage>, id: string)
    ensures |WithId(table, id)| == 1 ==> OnInsertEvent(v, FetchJoined(table, id)).messages == v.messages + WithId(table, id)
    ensures |WithId(table, id)| != 1 ==> OnInsertEvent(v, FetchJoined(table, id)) == v
    ensures forall m :: m in table && multiset(table)[m] == 1 && (forall x :: x in table && x.id == m.id ==> x == m) ==>
      OnInsertEvent(v, FetchJoined(table, m.id)).messages == v.messages + [m]
  {
    forall m | m in table && multiset(table)[m] == 1 && (forall x :: x in table && x.id == m.id ==> x == m)
      ensures OnInsertEvent(v, FetchJoined(table, m.id)).messages == v.messages + [m]
    {
      OnlyRowWithId(table, m);
    }
  }

  /** The insert-event handler given the joined fetch's data: append it at the
      tail, or drop the event when there is none. */
  function OnInsertEvent(v: ChatView, fetched: Option<ChatMessage>): (r: ChatView)
    ensures r.room == v.room && r.loading == v.loading && r.draft == v.draft
    ensures |r.messages| == |v.messages| + (if fetched.Some? then 1 else 0)
    ensures r.messages[..|v.messages|] == v.messages
    ensures fetched.Some? ==> r.messages[|v.messages|] == fetched.value
  {
    match fetched
    case None => v
    case Some(m) => v.(messages := v.messages + [m])
  }

  /** Replaying a sequence of events' fetched data. */
  function ApplyEvents(v: ChatView, events: seq<Option<ChatMessage>>): (w: ChatView)
    decreases |events|
  {
    if |events| == 0 then v else ApplyEvents(OnInsertEvent(v, events[0]), events[1..])
  }

  /** The messages events deliver, dropped events left out, in order. */
  function Delivered(events: seq<Option<ChatMessage>>): (ms: seq<ChatMessage>)
  {
    if |events| == 0 then []
    else (if events[0].Some? then [events[0].value] else []) + Delivered(events[1..])
  }

  /** Events only ever extend the list at its tail, in arrival order. */
  lemma {:induction false} ApplyEventsAppends(v: ChatView, events: seq<Option<ChatMessage>>)
    ensures ApplyEvents(v, events).messages == v.messages + Delivered(events)
    ensures ApplyEvents(v, events).room == v.room
    ensures ApplyEvents(v, events).loading == v.loading
    ensures ApplyEvents(v, events).draft == v.draft
    decreases |events|
  {
    if |events| > 0 {
      var w := OnInsertEvent(v, events[0]);
      ApplyEventsAppends(w, events[1..]);
      if events[0].Some? {
        assert w.messages == v.messages + [events[0].value];
      }
    }
  }

  /** After selecting a room, a history reply and then events, the list is the
      history rows followed by the delivered events; a failed history load
      leaves just the events and the spinner off. */
  lemma SelectBackfillThenEvents(v: ChatView, room: RoomId, reply: Remote<Option<seq<ChatMessage>>>,
                                 events: seq<Option<ChatMessage>>)
    ensures var w := ApplyEvents(Backfill(ChangeRoom(v, room), reply), events);
      && w.room == room && !w.loading
      && w.messages == (if reply.Returned? then reply.value.GetOr([]) else []) + Delivered(events)
  {
    ApplyEventsAppends(Backfill(ChangeRoom(v, room), reply), events);
  }

  /** A history load that uses the page's query shows rows of the current
      room only, oldest first. */
  lemma BackfillShowsCurrentRoom(v: ChatView, table: seq<ChatMessage>)
    ensures var w := Backfill(v, Returned(Some(RoomPage(table, v.room))));
      && IsOldestPage(table, v.room, w.messages)
      && forall m :: m in w.messages ==> m.roomId == w.room
  {
  }

  // ---------------------------------------------------------------------------
  // Sending

  /** The row `sendMessage` asks the store to insert into `messages`. */
  datatype NewMessage = NewMessage(userId: UserId, roomId: RoomId, content: string)

  /** The view after a send, the profile rows the local `ensureProfile`
      inserted, and the message insert issued, if any. */
  datatype SendOutcome = SendOutcome(view: ChatView, profileInserts: seq<ProfileRow>, message: Option<NewMessage>)

  /** The message insert's outcome: `Returned(None)` is success. */
  predicate SendFailed(reply: Remote<Option<DbError>>) {
    reply.Threw? || reply.value.Some?
  }

  /** `sendMessage` with the store's replies injected: the profile lookup and
      the message insert. */
  function SendMessage(v: ChatView, user: Option<AuthUser>, lookup: Remote<Option<UserId>>,
                       reply: Remote<Option<DbError>>): (o: SendOutcome)
    // an empty draft after trimming, or nobody signed in: nothing happens
    ensures Trim(v.draft) == "" || user.None? ==> o == SendOutcome(v, [], None)
    ensures Trim(v.draft) != "" && user.Some? ==>
      && o.message == Some(NewMessage(user.value.id, v.room, Trim(v.draft)))
      && o.profileInserts == EnsureProfileLocal(user.value.id, user.value.email, lookup)
      // the draft is cleared, and the trimmed text restored on failure
      && o.view.draft == (if SendFailed(reply) then Trim(v.draft) else "")
      // nothing is appended locally: the list waits for the insert event
      && o.view.messages == v.messages
      && o.view.room == v.room && o.view.loading == v.loading
  {
    var content := Trim(v.draft);
    if content == "" || user.None? then SendOutcome(v, [], None)
    else
      var inserts := EnsureProfileLocal(user.value.id, user.value.email, lookup);
      var failed := SendFailed(reply);
      SendOutcome(v.(draft := if failed then content else ""), inserts,
                  Some(NewMessage(user.value.id, v.room, content)))
  }

  /** A failed send loses no text: sending again issues the very same insert. */
  lemma ResendAfterFailureRepeatsInsert(v: ChatView, user: Option<AuthUser>, lookup: Remote<Option<UserId>>,
                                        reply: Remote<Option<DbError>>, lookup2: Remote<Option<UserId>>,
                                        reply2: Remote<Option<DbError>>)
    requires Trim(v.draft) != "" && user.Some? && SendFailed(reply)
    ensures var first := SendMessage(v, user, lookup, reply);
      SendMessage(first.view, user, lookup2, reply2).message == first.message
  {
    TrimIdempotent(v.draft);
  }

  // ---------------------------------------------------------------------------
  // Date banners

  /** The day label of each message, from an abstract day function of its
      timestamp (the page's locale date formatting is not modelled). */
  function DayLabels(messages: seq<ChatMessage>, dayOf: int -> string): (labels: seq<string>)
    ensures |labels| == |messages|
    ensures forall i :: 0 <= i < |messages| ==> labels[i] == dayOf(messages[i].createdAt)
  {
    seq(|messages|, i requires 0 <= i < |messages| => dayOf(messages[i].createdAt))
  }

  /** A banner goes above the first message and above each message whose day
      label differs from its predecessor's. */
  predicate ShowDate(labels: seq<string>, i: nat): (b: bool)
    requires i < |labels|
    ensures i == 0 ==> b
    ensures 0 < i ==> (b <==> labels[i - 1] != labels[i])
  {
    i == 0 || labels[i] != labels[i - 1]
  }

  /** The banner a message is shown under: the nearest banner at or above it. */
  function BannerFor(labels: seq<string>, i: nat): (b: nat)
    requires i < |labels|
    ensures b <= i && ShowDate(labels, b)
    ensures forall j :: b < j <= i ==> !ShowDate(labels, j)
  {
    if ShowDate(labels, i) then i else BannerFor(labels, i - 1)
  }

  /** Every message sits under a banner carrying its own day label. */
  lemma {:induction false} BannerMatchesDay(labels: seq<string>, i: nat)
    requires i < |labels|
    ensures labels[BannerFor(labels, i)] == labels[i]
    decreases i
  {
    if !ShowDate(labels, i) {
      BannerMatchesDay(labels, i - 1);
    }
  }

  /** Two successive banners never carry the same label. */
  lemma SuccessiveBannersDiffer(labels: seq<string>, i: nat)
    requires 0 < i < |labels| && ShowDate(labels, i)
    ensures labels[BannerFor(labels, i - 1)] != labels[i]
  {
    BannerMatchesDay(labels, i - 1);
  }

  /** Over the rendered list itself: each message is shown under a banner
      that sits at or above it and reads the message's own day. */
  lemma MessageUnderItsDay(messages: seq<ChatMessage>, dayOf: int -> string, i: nat)
    requires i < |messages|
    ensures var labels := DayLabels(messages, dayOf);
      var b := BannerFor(labels, i);
      && b <= i
      && dayOf(messages[b].createdAt) == dayOf(messages[i].createdAt)
      && (b == 0 || dayOf(messages[b].createdAt) != dayOf(messages[b - 1].createdAt))
  {
    BannerMatchesDay(DayLabels(messages, dayOf), i);
  }
}

=== FILE: identity.dfy ===
/** The signed-in identity as the hosted auth service hands it to the pages. */
module Identity {
  import opened Wrappers

  type UserId = string

  /** An authenticated user: id, optional email and the free-form
      `user_metadata` object (absent when the service omits it). Metadata values
      are modelled as strings; other JSON values are not part of this model. */
  datatype AuthUser = AuthUser(id: UserId, email: Option<string>, metadata: Option<map<string, string>>)

  /** `user?.user_metadata?.[key]`: undefined unless the user, the metadata
      object and the key are all present. */
  function MetadataField(user: Option<AuthUser>, key: string): (r: Option<string>)
    ensures r.Some? <==> user.Some? && user.value.metadata.Some? && key in user.value.metadata.value
    ensures r.Some? ==> r.value == user.value.metadata.value[key]
  {
    if user.Some? && user.value.metadata.Some? && key in user.value.metadata.value
    then Some(user.value.metadata.value[key])
    else None
  }

  /** `user?.email`. */
  function Email(user: Option<AuthUser>): (r: Option<string>)
    ensures r.Some? ==> user.Some? && r == user.value.email
    ensures user.Some? ==> r == user.value.email
  {
    if user.Some? then user.value.email else None
  }
}

=== FILE: js_text.dfy ===
/** The JavaScript string idioms the pages rely on: falsy `||` chains,
    `String.prototype.trim`, `email.split('@')[0]` and number-to-string
    conversion in a template literal. */
module JsText {
  import opened Wrappers

  /** An optional string is truthy in JavaScript iff it is present and non-empty. */
  predicate Truthy(v: Option<string>) {
    v.Some? && v.value != ""
  }

  /** JavaScript's `a || b` on optional strings. */
  function Or(a: Option<string>, b: Option<string>): (r: Option<string>)
    ensures Truthy(a) ==> r == a
    ensures !Truthy(a) ==> r == b
  {
    if Truthy(a) then a else b
  }

  /** Index of the first truthy candidate, or `|cands|` when there is none. */
  function FirstTruthy(cands: seq<Option<string>>): (k: nat)
    ensures k <= |cands|
    ensures forall j :: 0 <= j < k ==> !Truthy(cands[j])
    ensures k < |cands| ==> Truthy(cands[k])
  {
    if |cands| == 0 then 0
    else if Truthy(cands[0]) then 0
    else 1 + FirstTruthy(cands[1..])
  }

  /** Reference definition of a fallback chain: the first non-empty candidate,
      otherwise `fallback`. */
  function FirstNonEmpty(cands: seq<Option<string>>, fallback: string): (r: string) {
    var k := FirstTruthy(cands);
    if k < |cands| then cands[k].value else fallback
  }

  /** A left-nested chain `c0 || c1 || ... || fallback` picks the first
      non-empty candidate. */
  lemma {:induction false} OrChainIsFirstNonEmpty(acc: Option<string>, cands: seq<Option<string>>, fallback: string)
    requires fallback != ""
    ensures OrFold(acc, cands, fallback) == FirstNonEmpty([acc] + cands, fallback)
    decreases |cands|
  {
    if |cands| == 0 {
    } else {
      OrChainIsFirstNonEmpty(Or(acc, cands[0]), cands[1..], fallback);
      var rest := [Or(acc, cands[0])] + cands[1..];
      assert ([acc] + cands)[1..] == cands;
      assert rest[1..] == cands[1..];
      if Truthy(acc) {
      } else if Truthy(cands[0]) {
        assert ([acc] + cands)[1..][0] == cands[0];
      } else {
        assert ([acc] + cands)[1..] == [cands[0]] + cands[1..];
        assert FirstTruthy([acc] + cands) == 1 + FirstTruthy(cands);
        assert FirstTruthy(cands) == 1 + FirstTruthy(cands[1..]);
        assert FirstTruthy(rest) == 1 + FirstTruthy(cands[1..]);
      }
    }
  }

  /** `acc || cands[0] || ... || fallback`, evaluated left to right as JavaScript does. */
  function OrFold(acc: Option<string>, cands: seq<Option<string>>, fallback: string): (r: string)
    decreases |cands|
  {
    if |cands| == 0 then Or(acc, Some(fallback)).value
    else OrFold(Or(acc, cands[0]), cands[1..], fallback)
  }

  // ---------------------------------------------------------------------------
  // email.split('@')[0]

  /** The part of `s` before its first `@`; the whole string when there is none. */
  function LocalPart(s: string): (r: string)
    ensures r <= s
    ensures '@' !in r
    ensures '@' !in s ==> r == s
    ensures '@' in s ==> |r| < |s| && s[|r|] == '@'
  {
    if |s| == 0 then ""
    else if s[0] == '@' then ""
    else [s[0]] + LocalPart(s[1..])
  }

  /** `email?.split('@')[0]`: undefined when the email is. */
  function EmailLocalPart(email: Option<string>): (r: Option<string>)
    ensures r.Some? <==> email.Some?
    ensures email.Some? ==> r.value == LocalPart(email.value)
  {
    match email
    case None => None
    case Some(e) => Some(LocalPart(e))
  }

  // ---------------------------------------------------------------------------
  // String.prototype.trim

  /** ECMAScript WhiteSpace and LineTerminator code points (what `trim` strips). */
  predicate IsWhitespace(c: char) {
    || c == '\U{0009}' || c == '\U{000A}' || c == '\U{000B}' || c == '\U{000C}'
    || c == '\U{000D}' || c == '\U{0020}' || c == '\U{00A0}' || c == '\U{1680}'
    || ('\U{2000}' <= c <= '\U{200A}')
    || c == '\U{2028}' || c == '\U{2029}' || c == '\U{202F}' || c == '\U{205F}'
    || c == '\U{3000}' || c == '\U{FEFF}'
  }

  predicate AllWhitespace(s: string) {
    forall i :: 0 <= i < |s| ==> IsWhitespace(s[i])
  }

  /** Drops leading whitespace. */
  function TrimStart(s: string): (r: string)
    ensures |r| <= |s| && r == s[|s| - |r|..]
    ensures AllWhitespace(s[..|s| - |r|])
    ensures r != "" ==> !IsWhitespace(r[0])
  {
    if |s| > 0 && IsWhitespace(s[0]) then TrimStart(s[1..]) else s
  }

  /** Drops trailing whitespace. */
  function TrimEnd(s: string): (r: string)
    ensures |r| <= |s| && r == s[..|r|]
    ensures AllWhitespace(s[|r|..])
    ensures r != "" ==> !IsWhitespace(r[|r| - 1])
  {
    if |s| > 0 && IsWhitespace(s[|s| - 1]) then
      var r := TrimEnd(s[..|s| - 1]);
      assert s[|r|..] == s[..|s| - 1][|r|..] + [s[|s| - 1]];
      r
    else s
  }

  /** `s.trim()`: a contiguous piece of `s` whose ends are not whitespace and
      which is empty exactly when `s` is all whitespace. */
  function Trim(s: string): (r: string)
    ensures |s| - |TrimStart(s)| + |r| <= |s|
    ensures r == s[|s| - |TrimStart(s)|..|s| - |TrimStart(s)| + |r|]
    ensures r != "" ==> !IsWhitespace(r[0]) && !IsWhitespace(r[|r| - 1])
    ensures AllWhitespace(s[|s| - |TrimStart(s)| + |r|..])
    ensures r == "" <==> AllWhitespace(s)
  {
    var a := TrimStart(s);
    var r := TrimEnd(a);
    TrimPieces(s, a, r);
    r
  }

  lemma TrimPieces(s: string, a: string, r: string)
    requires |a| <= |s| && a == s[|s| - |a|..] && AllWhitespace(s[..|s| - |a|])
    requires a != "" ==> !IsWhitespace(a[0])
    requires |r| <= |a| && r == a[..|r|] && AllWhitespace(a[|r|..])
    ensures |s| - |a| + |r| <= |s|
    ensures r == s[|s| - |a|..|s| - |a| + |r|]
    ensures r != "" ==> !IsWhitespace(r[0])
    ensures AllWhitespace(s[|s| - |a| + |r|..])
    ensures r == "" <==> AllWhitespace(s)
  {
    var k := |s| - |a|;
    assert a[..|r|] == s[k..k + |r|];
    assert s[k + |r|..] == a[|r|..];
    if r != "" {
      assert r[0] == a[0] == s[k];
    } else {
      assert a[|r|..] == a;
      AllWhitespaceConcat(s[..k], a);
      assert s == s[..k] + a;
    }
  }

  lemma AllWhitespaceConcat(x: string, y: string)
    requires AllWhitespace(x) && AllWhitespace(y)
    ensures AllWhitespace(x + y)
  {
    forall i | 0 <= i < |x + y|
      ensures IsWhitespace((x + y)[i])
    {
      if i < |x| { assert (x + y)[i] == x[i]; } else { assert (x + y)[i] == y[i - |x|]; }
    }
  }

  /** Trimming twice is trimming once. */
  lemma TrimIdempotent(s: string)
    ensures Trim(Trim(s)) == Trim(s)
  {
    var t := Trim(s);
    assert TrimStart(t) == t;
    assert TrimEnd(t) == t;
  }

  // ---------------------------------------------------------------------------
  // Decimal rendering of a natural number, as `${n}` prints it

  function DigitChar(d: nat): (c: char)
    requires d < 10
    ensures '0' <= c <= '9'
    ensures (c as int) - ('0' as int) == d
  {
    (('0' as int) + d) as char
  }

  predicate IsDigits(s: string) {
    forall i :: 0 <= i < |s| ==> '0' <= s[i] <= '9'
  }

  /** Decimal digits of `n`, without leading zeros. */
  function DecimalString(n: nat): (r: string)
    ensures |r| >= 1 && IsDigits(r)
    ensures |r| > 1 ==> r[0] != '0'
    decreases n
  {
    if n < 10 then [DigitChar(n)] else DecimalString(n / 10) + [DigitChar(n % 10)]
  }

  /** The number a digit string denotes (the inverse of `DecimalString`). */
  function DecimalValue(s: string): (n: nat)
    requires IsDigits(s)
  {
    if |s| == 0 then 0
    else 10 * DecimalValue(s[..|s| - 1]) + ((s[|s| - 1] as int) - ('0' as int))
  }

  /** Reading back the rendered digits yields the number. */
  lemma {:induction false} DecimalRoundTrip(n: nat)
    ensures DecimalValue(DecimalString(n)) == n
    decreases n
  {
    if n >= 10 {
      DecimalRoundTrip(n / 10);
      var r := DecimalString(n);
      assert r[..|r| - 1] == DecimalString(n / 10);
    }
  }

  /** A number below 10^k has at most k digits. */
  lemma {:induction false} DecimalLength(n: nat, k: nat, bound: nat)
    requires bound == Pow10(k) && n < bound && k >= 1
    ensures |DecimalString(n)| <= k
    decreases k
  {
    if n >= 10 {
      assert n / 10 < Pow10(k - 1);
      DecimalLength(n / 10, k - 1, Pow10(k - 1));
    }
  }

  function Pow10(k: nat): (p: nat) {
    if k == 0 then 1 else 10 * Pow10(k - 1)
  }
}

=== FILE: profile_helper.dfy ===
/** The shared `ensureProfile(userId, username?)` helper: read the profile row;
    when it is missing, insert one under a default username and, only on a
    unique violation, retry exactly once with a numeric suffix. */
module ProfileHelper {
  import opened Wrappers
  import opened Identity
  import opened JsText
  import opened ProfileStore

  /** Exclusive upper bound of `Math.floor(Math.random() * 9999)`. */
  const SuffixBound: nat := 9999

  /** Literal username used when every candidate is empty. */
  const FallbackUsername: string := "user"

  /** What the helper hands back: the `{ id }` row it found, or the row an
      insert echoed. */
  datatype Provisioned = Existing(id: UserId) | Created(row: ProfileRow)

  /** The returned profile (JavaScript `null` as `None`) together with every
      row the helper asked the store to insert, in order. */
  datatype Provision = Provision(profile: Option<Provisioned>, inserts: seq<ProfileRow>)

  /** `username || user_metadata.username || email.split('@')[0] || 'user'`. */
  function DefaultUsername(username: Option<string>, user: Option<AuthUser>): (r: string)
    ensures r != ""
    ensures r == FirstNonEmpty([username, MetadataField(user, "username"), EmailLocalPart(Email(user))], FallbackUsername)
  {
    var rest := [MetadataField(user, "username"), EmailLocalPart(Email(user))];
    OrChainIsFirstNonEmpty(username, rest, FallbackUsername);
    assert [username] + rest == [username, MetadataField(user, "username"), EmailLocalPart(Email(user))];
    OrFold(username, rest, FallbackUsername)
  }

  function AsCreated(data: Option<ProfileRow>): (r: Option<Provisioned>)
    ensures r.Some? <==> data.Some?
    ensures data.Some? ==> r.value == Created(data.value)
  {
    match data
    case None => None
    case Some(row) => Some(Created(row))
  }

  predicate IsUniqueViolation(reply: InsertReply) {
    reply.error.Some? && reply.error.value.code == UniqueViolation
  }

  /** The helper, with the store's replies injected: `existing` is what the
      lookup returned, `user` what `auth.getUser()` returned, `insert` the
      store's reply to an insert, `suffix` the random draw. */
  function EnsureProfile(userId: UserId, username: Option<string>, existing: Option<UserId>,
                         user: Option<AuthUser>, insert: ProfileRow -> InsertReply, suffix: nat): (p: Provision)
    requires suffix < SuffixBound
    // an existing row is returned as it is and nothing is written
    ensures existing.Some? ==> p == Provision(Some(Existing(existing.value)), [])
    // otherwise the first insert is the user's id under the default username
    ensures existing.None? ==> 1 <= |p.inserts| <= 2
    ensures existing.None? ==> p.inserts[0] == ProfileRow(userId, DefaultUsername(username, user))
    // a second insert happens exactly when the first failed with 23505
    ensures |p.inserts| == 2 <==> existing.None? && IsUniqueViolation(insert(p.inserts[0]))
    // the retry keeps the id and appends the suffix's decimal digits
    ensures |p.inserts| == 2 ==> p.inserts[1] == ProfileRow(userId, p.inserts[0].username + DecimalString(suffix))
    ensures |p.inserts| == 2 ==> p.inserts[1].username != p.inserts[0].username
    // the last insert's reply is returned as it is, even when empty
    ensures |p.inserts| > 0 ==> p.profile == AsCreated(insert(p.inserts[|p.inserts| - 1]).data)
  {
    if existing.Some? then Provision(Some(Existing(existing.value)), [])
    else
      var name := DefaultUsername(username, user);
      var first := ProfileRow(userId, name);
      var reply := insert(first);
      if IsUniqueViolation(reply) then
        var second := ProfileRow(userId, name + DecimalString(suffix));
        assert |second.username| > |name|;
        Provision(AsCreated(insert(second).data), [first, second])
      else
        Provision(AsCreated(reply.data), [first])
  }

  /** The retry username is the default name followed by one to four digits
      that read back as the suffix. */
  lemma RetryUsernameShape(suffix: nat)
    requires suffix < SuffixBound
    ensures 1 <= |DecimalString(suffix)| <= 4
    ensures DecimalValue(DecimalString(suffix)) == suffix
  {
    DecimalLength(suffix, 4, Pow10(4));
    DecimalRoundTrip(suffix);
  }

  /** The helper run against one state of the profiles table. */
  function RunAgainst(store: Store, userId: UserId, username: Option<string>, user: Option<AuthUser>, suffix: nat): (r: (Provision, Store))
    requires suffix < SuffixBound
  {
    var p := EnsureProfile(userId, username, Lookup(store, userId), user, InsertOracle(store), suffix);
    (p, ApplyInserts(store, p.inserts))
  }

  /** Against the table, the helper leaves a row for the user exactly when it
      returns a profile, never changes another row, and keeps usernames unique. */
  lemma RunAgainstStore(store: Store, userId: UserId, username: Option<string>, user: Option<AuthUser>, suffix: nat)
    requires suffix < SuffixBound
    requires UsernamesUnique(store)
    ensures var (p, s') := RunAgainst(store, userId, username, user, suffix);
      && (userId in s' <==> p.profile.Some?)
      && UsernamesUnique(s')
      && (forall id :: id in store ==> id in s' && s'[id] == store[id])
  {
    var (p, s') := RunAgainst(store, userId, username, user, suffix);
    ApplyInsertsKeepsUsernamesUnique(store, p.inserts);
    ApplyInsertsKeepsRows(store, p.inserts);
    if userId !in store {
      var first := p.inserts[0];
      var s1 := Insert(store, first).1;
      if |p.inserts| == 2 {
        var second := p.inserts[1];
        assert ApplyInserts(store, p.inserts) == ApplyInserts(s1, [second]);
        assert s1 == store;
        assert ApplyInserts(store, [second]) == Insert(store, second).1;
      } else {
        assert ApplyInserts(store, p.inserts) == ApplyInserts(s1, []);
      }
    }
  }

  /** A second call after a successful first one finds the row and writes nothing. */
  lemma SecondCallWritesNothing(store: Store, userId: UserId, username: Option<string>, user: Option<AuthUser>, s1: nat, s2: nat)
    requires s1 < SuffixBound && s2 < SuffixBound
    requires UsernamesUnique(store)
    requires RunAgainst(store, userId, username, user, s1).0.profile.Some?
    ensures var again := RunAgainst(RunAgainst(store, userId, username, user, s1).1, userId, username, user, s2).0;
      again.inserts == [] && again.profile == Some(Existing(userId))
  {
    RunAgainstStore(store, userId, username, user, s1);
  }

  /** Losing a race: when another caller created the row between the lookup
      and the insert, both inserts hit the id constraint and the helper returns
      null, leaving the other caller's row as the only one. */
  lemma LostRaceReturnsNull(store: Store, userId: UserId, username: Option<string>, user: Option<AuthUser>, suffix: nat)
    requires suffix < SuffixBound
    requires userId in store
    ensures var p := EnsureProfile(userId, username, None, user, InsertOracle(store), suffix);
      && |p.inserts| == 2
      && p.profile.None?
      && ApplyInserts(store, p.inserts) == store
  {
    var p := EnsureProfile(userId, username, None, user, InsertOracle(store), suffix);
    assert Conflicts(store, p.inserts[0]);
    assert Conflicts(store, p.inserts[1]);
    assert ApplyInserts(store, p.inserts) == ApplyInserts(store, p.inserts[1..]);
  }

  /** Two users deriving the same default name: the later one hits the
      username constraint and, when the suffixed name is free, is stored under
      it. */
  lemma UsernameCollisionRetriesWithSuffix(store: Store, userId: UserId, username: Option<string>, user: Option<AuthUser>, suffix: nat)
    requires suffix < SuffixBound
    requires userId !in store
    requires DefaultUsername(username, user) in store.Values
    requires DefaultUsername(username, user) + DecimalString(suffix) !in store.Values
    ensures var (p, s') := RunAgainst(store, userId, username, user, suffix);
      var retried := ProfileRow(userId, DefaultUsername(username, user) + DecimalString(suffix));
      && p.inserts == [ProfileRow(userId, DefaultUsername(username, user)), retried]
      && p.profile == Some(Created(retried))
      && userId in s' && s'[userId] == retried.username
  {
    var (p, s') := RunAgainst(store, userId, username, user, suffix);
    assert Conflicts(store, p.inserts[0]);
    assert !Conflicts(store, p.inserts[1]);
    assert ApplyInserts(store, p.inserts) == ApplyInserts(store, p.inserts[1..]);
    assert p.inserts[1..][1..] == [];
  }
}

=== FILE: profile_page.dfy ===
/** The profile page: loading the user's data, editing the username,
    removing a favorite and the five-star rating display. */
module ProfilePage {
  import opened Wrappers
  import opened Identity
  import opened JsText
  import opened ProfileStore
  import Categories

  /** A `profiles` row as the page reads it (`select('*')`). */
  datatype Profile = Profile(id: UserId, username: string, createdAt: int)

  /** A favorites row joined with its service. */
  datatype Favorite = Favorite(id: string, serviceId: string, serviceName: string, category: string)

  /** A review row joined with its service; `rating` is the stored number of stars. */
  datatype Review = Review(id: string, rating: int, comment: string, serviceName: string)

  datatype ProfileState = ProfileState(
    profile: Option<Profile>,
    favorites: seq<Favorite>,
    reviews: seq<Review>,
    loading: bool,
    editing: bool,
    editUsername: string,
    updating: bool)

  /** The state the page mounts with. */
  function InitialState(): (s: ProfileState)
    ensures s.profile.None? && s.favorites == [] && s.reviews == [] && s.loading && !s.editing && s.editUsername == ""
  {
    ProfileState(None, [], [], true, false, "", false)
  }

  /** `fetchUserData` with the three reads injected. A returned error shows up
      as `Returned(None)` (the page ignores error objects); a throw abandons the
      remaining reads. The spinner always stops. */
  function FetchUserData(s: ProfileState, signedIn: bool, profile: Remote<Option<Profile>>,
                         favorites: Remote<Option<seq<Favorite>>>, reviews: Remote<Option<seq<Review>>>): (r: ProfileState)
    ensures !signedIn ==> r == s
    ensures signedIn ==> !r.loading
    ensures signedIn && profile == Returned(None) ==> r.profile == s.profile && r.editUsername == s.editUsername
    ensures signedIn && profile.Returned? && profile.value.Some? ==>
      r.profile == profile.value && r.editUsername == profile.value.value.username
    // null lists become empty lists
    ensures signedIn && profile.Returned? && favorites.Returned? ==> r.favorites == favorites.value.GetOr([])
    ensures signedIn && profile.Returned? && favorites.Returned? && reviews.Returned? ==> r.reviews == reviews.value.GetOr([])
    // a throw leaves every later field as it was
    ensures signedIn && profile.Threw? ==> r == s.(loading := false)
    ensures signedIn && (profile.Threw? || favorites.Threw?) ==> r.favorites == s.favorites && r.reviews == s.reviews
    ensures signedIn && reviews.Threw? ==> r.reviews == s.reviews
    ensures r.editing == s.editing && r.updating == s.updating
  {
    if !signedIn then s
    else
      match profile
      case Threw => s.(loading := false)
      case Returned(p) =>
        var s1 := if p.Some? then s.(profile := p, editUsername := p.value.username) else s;
        match favorites
        case Threw => s1.(loading := false)
        case Returned(f) =>
          var s2 := s1.(favorites := f.GetOr([]));
          match reviews
          case Threw => s2.(loading := false)
          case Returned(v) => s2.(reviews := v.GetOr([]), loading := false)
  }

  /** A full load on a fresh page shows exactly what the three reads returned,
      and starting an edit, typing anything and cancelling gets back exactly the
      loaded page, with the fetched username in the field. */
  lemma LoadThenCancelEdit(p: Profile, favorites: Option<seq<Favorite>>, reviews: Option<seq<Review>>, typed: seq<string>)
    ensures var r := FetchUserData(InitialState(), true, Returned(Some(p)), Returned(favorites), Returned(reviews));
      && r == ProfileState(Some(p), favorites.GetOr([]), reviews.GetOr([]), false, false, p.username, false)
      && CancelEdit(TypeAll(StartEdit(r), typed)) == r
  {
    var r := FetchUserData(InitialState(), true, Returned(Some(p)), Returned(favorites), Returned(reviews));
    CancelDiscardsTyping(r, typed);
  }

  /** Loading again with the same replies changes nothing. */
  lemma FetchUserDataIdempotent(s: ProfileState, signedIn: bool, profile: Remote<Option<Profile>>,
                                favorites: Remote<Option<seq<Favorite>>>, reviews: Remote<Option<seq<Review>>>)
    ensures var r := FetchUserData(s, signedIn, profile, favorites, reviews);
      FetchUserData(r, signedIn, profile, favorites, reviews) == r
  {
  }

  // ---------------------------------------------------------------------------
  // Username editing

  /** The "edit" button: edit mode on, the field keeps the text it holds. */
  function StartEdit(s: ProfileState): (r: ProfileState)
    ensures r.editing && r.editUsername == s.editUsername && r.profile == s.profile
    ensures r.favorites == s.favorites && r.reviews == s.reviews && r.loading == s.loading && r.updating == s.updating
  {
    s.(editing := true)
  }

  /** Typing into the username field: the field holds the new text and
      nothing else changes. */
  function TypeUsername(s: ProfileState, text: string): (r: ProfileState)
    ensures r.editUsername == text && r.editing == s.editing && r.profile == s.profile
    ensures r.favorites == s.favorites && r.reviews == s.reviews && r.loading == s.loading && r.updating == s.updating
  {
    s.(editUsername := text)
  }

  /** The "cancel" button, which exists only while a profile is shown: leave
      edit mode and put the stored username back in the field. */
  function CancelEdit(s: ProfileState): (r: ProfileState)
    requires s.profile.Some?
    ensures r == s.(editing := false, editUsername := s.profile.value.username)
  {
    s.(editing := false, editUsername := s.profile.value.username)
  }

  /** Whatever was typed, cancelling restores the field to the stored name. */
  lemma {:induction false} CancelDiscardsTyping(s: ProfileState, typed: seq<string>)
    requires s.profile.Some?
    ensures CancelEdit(TypeAll(StartEdit(s), typed)) == CancelEdit(s)
    decreases |typed|
  {
  }

  /** A run of keystrokes: only the field changes, and it ends with the last text typed. */
  function TypeAll(s: ProfileState, typed: seq<string>): (r: ProfileState)
    ensures r == s.(editUsername := r.editUsername)
    ensures |typed| > 0 ==> r.editUsername == typed[|typed| - 1]
    decreases |typed|
  {
    if |typed| == 0 then s else TypeAll(TypeUsername(s, typed[0]), typed[1..])
  }

  /** The `profiles` update the page issues. */
  datatype UsernameUpdate = UsernameUpdate(id: UserId, username: string)

  /** The state after `updateUsername`, the update issued, and whether the page
      reloads itself. */
  datatype UpdateOutcome = UpdateOutcome(state: ProfileState, update: Option<UsernameUpdate>, reload: bool)

  /** `updateUsername` with the update's error and the re-read injected. */
  function UpdateUsername(s: ProfileState, user: Option<UserId>, update: Remote<Option<DbError>>,
                          reread: Remote<Option<Profile>>): (o: UpdateOutcome)
    // nobody signed in, or nothing but whitespace typed: nothing happens
    ensures user.None? || Trim(s.editUsername) == "" ==> o == UpdateOutcome(s, None, false)
    // otherwise the stored name becomes the trimmed input
    ensures user.Some? && Trim(s.editUsername) != "" ==>
      o.update == Some(UsernameUpdate(user.value, Trim(s.editUsername))) && !o.state.updating
    // success leaves edit mode and reloads; failure keeps the page as it was
    ensures user.Some? && Trim(s.editUsername) != "" ==>
      (o.reload <==> update == Returned(None) && reread.Returned?)
    ensures o.reload ==> !o.state.editing
    ensures !o.reload ==> o.state.profile == s.profile && o.state.editing == s.editing
    ensures o.state.editUsername == s.editUsername && o.state.favorites == s.favorites
    // a failed update or re-read only ends the `updating` flag
    ensures user.Some? && Trim(s.editUsername) != "" && !o.reload ==> o.state == s.(updating := false)
    // success stores the re-read row when one came back and touches nothing else
    ensures o.reload ==>
      o.state == s.(profile := if reread.value.Some? then reread.value else s.profile, editing := false, updating := false)
  {
    var name := Trim(s.editUsername);
    if user.None? || name == "" then UpdateOutcome(s, None, false)
    else
      var write := Some(UsernameUpdate(user.value, name));
      if update != Returned(None) then UpdateOutcome(s.(updating := false), write, false)
      else
        match reread
        case Threw => UpdateOutcome(s.(updating := false), write, false)
        case Returned(p) =>
          var s1 := if p.Some? then s.(profile := p) else s;
          UpdateOutcome(s1.(editing := false, updating := false), write, true)
  }

  /** The written name is non-empty, has no surrounding whitespace, and is
      unchanged by trimming again. */
  lemma UpdatedNameIsTrimmed(s: ProfileState, user: Option<UserId>, update: Remote<Option<DbError>>,
                             reread: Remote<Option<Profile>>)
    requires user.Some? && Trim(s.editUsername) != ""
    ensures var o := UpdateUsername(s, user, update, reread);
      o.update.Some? && var n := o.update.value.username;
      n != "" && !IsWhitespace(n[0]) && !IsWhitespace(n[|n| - 1]) && Trim(n) == n
  {
    var n := Trim(s.editUsername);
    assert UpdateUsername(s, user, update, reread).update.value.username == n;
    TrimIdempotent(s.editUsername);
  }

  // ---------------------------------------------------------------------------
  // Favorites

  /** The page's list without the favorites of one service, order kept. */
  function WithoutService(favs: seq<Favorite>, serviceId: string): (r: seq<Favorite>)
    ensures |r| <= |favs|
    ensures forall f :: f in r <==> f in favs && f.serviceId != serviceId
  {
    if |favs| == 0 then []
    else if favs[0].serviceId == serviceId then WithoutService(favs[1..], serviceId)
    else [favs[0]] + WithoutService(favs[1..], serviceId)
  }

  /** Removal distributes over concatenation, so relative order is kept. */
  lemma {:induction false} WithoutServiceKeepsOrder(a: seq<Favorite>, b: seq<Favorite>, serviceId: string)
    ensures WithoutService(a + b, serviceId) == WithoutService(a, serviceId) + WithoutService(b, serviceId)
    decreases |a|
  {
    if |a| > 0 {
      assert (a + b)[0] == a[0];
      assert (a + b)[1..] == a[1..] + b;
      WithoutServiceKeepsOrder(a[1..], b, serviceId);
    } else {
      assert a + b == b;
    }
  }

  /** Removing twice is removing once. */
  lemma {:induction false} WithoutServiceIdempotent(favs: seq<Favorite>, serviceId: string)
    ensures WithoutService(WithoutService(favs, serviceId), serviceId) == WithoutService(favs, serviceId)
    decreases |favs|
  {
    if |favs| > 0 {
      WithoutServiceIdempotent(favs[1..], serviceId);
    }
  }

  /** The `favorites` delete the page issues. */
  datatype FavoriteDelete = FavoriteDelete(userId: UserId, serviceId: string)

  /** `removeFavorite` with the delete's outcome injected. The delete's error
      object is not inspected, so only a throw keeps the local list. */
  function RemoveFavorite(s: ProfileState, user: Option<UserId>, serviceId: string, delete: Remote<()>): (r: (ProfileState, Option<FavoriteDelete>))
    ensures user.None? ==> r == (s, None)
    ensures user.Some? ==> r.1 == Some(FavoriteDelete(user.value, serviceId))
    ensures user.Some? && delete.Returned? ==> r.0 == s.(favorites := WithoutService(s.favorites, serviceId))
    ensures user.Some? && delete.Threw? ==> r.0 == s
  {
    if user.None? then (s, None)
    else
      var d := Some(FavoriteDelete(user.value, serviceId));
      match delete
      case Threw => (s, d)
      case Returned(_) => (s.(favorites := WithoutService(s.favorites, serviceId)), d)
  }

  /** After a removal that went through, removing the same service again
      changes nothing, and the favorites on either side of any split point keep
      their order. */
  lemma RemoveFavoriteTwice(s: ProfileState, user: UserId, serviceId: string, again: Remote<()>,
                            front: seq<Favorite>, back: seq<Favorite>)
    requires s.favorites == front + back
    ensures var once := RemoveFavorite(s, Some(user), serviceId, Returned(())).0;
      && once.favorites == WithoutService(front, serviceId) + WithoutService(back, serviceId)
      && RemoveFavorite(once, Some(user), serviceId, again).0 == once
  {
    WithoutServiceKeepsOrder(front, back, serviceId);
    WithoutServiceIdempotent(s.favorites, serviceId);
  }

  // ---------------------------------------------------------------------------
  // Stars

  const StarCount: nat := 5

  /** The five star glyphs of a review: star `i` is lit iff `i < rating`. */
  function Stars(rating: int): (r: seq<bool>)
    ensures |r| == StarCount
    ensures forall i :: 0 <= i < StarCount ==> (r[i] <==> i < rating)
  {
    seq(StarCount, i => i < rating)
  }

  function CountLit(stars: seq<bool>): (n: nat) {
    if |stars| == 0 then 0 else (if stars[0] then 1 else 0) + CountLit(stars[1..])
  }

  function Clamp(x: int, lo: int, hi: int): (r: int)
    requires lo <= hi
  {
    if x < lo then lo else if x > hi then hi else x
  }

  /** Lit stars form a prefix whose length is `k` exactly when every star
      before `k` is lit and none from `k` on. */
  lemma {:induction false} CountLitPrefix(stars: seq<bool>, k: nat)
    requires k <= |stars|
    requires forall i :: 0 <= i < |stars| ==> (stars[i] <==> i < k)
    ensures CountLit(stars) == k
    decreases |stars|
  {
    if |stars| > 0 {
      if k > 0 {
        CountLitPrefix(stars[1..], k - 1);
      } else {
        CountLitPrefix(stars[1..], 0);
      }
    }
  }

  /** The number of lit stars is the rating clamped to 0..5. */
  lemma LitStarsIsClampedRating(rating: int)
    ensures CountLit(Stars(rating)) == Clamp(rating, 0, StarCount)
  {
    CountLitPrefix(Stars(rating), Clamp(rating, 0, StarCount));
  }

  /** The badge colour of a favorite's service: its category's table colour,
      or the catch-all grey for a category the table does not list. */
  function FavoriteColor(f: Favorite): (r: string)
    ensures r in Categories.Colors.Values
    ensures f.category in Categories.Colors ==> r == Categories.Colors[f.category]
    ensures f.category !in Categories.Colors ==> r == Categories.OtherColor
  {
    Categories.CategoryColor(f.category)
  }
}

=== FILE: profile_store.dfy ===
/** The `profiles` table as the hosted store enforces it: one row per user id,
    usernames unique, and a rejected insert reported with PostgreSQL's
    unique-violation code. */
module ProfileStore {
  import opened Wrappers
  import opened Identity

  datatype ProfileRow = ProfileRow(id: UserId, username: string)

  /** The error object of a failed call; only its `code` is inspected. */
  datatype DbError = DbError(code: string)

  /** PostgreSQL's SQLSTATE for a unique-constraint violation. */
  const UniqueViolation: string := "23505"

  /** The `{ data, error }` reply of `insert(row).select().single()`. */
  datatype InsertReply = InsertReply(data: Option<ProfileRow>, error: Option<DbError>)

  /** The table: user id to username. Being a map, it holds at most one row per id. */
  type Store = map<UserId, string>

  predicate UsernamesUnique(store: Store) {
    forall a, b :: a in store && b in store && a != b ==> store[a] != store[b]
  }

  /** `select('id').eq('id', id).single()`: the row's id when it exists. */
  function Lookup(store: Store, id: UserId): (r: Option<UserId>)
    ensures r.Some? <==> id in store
    ensures r.Some? ==> r.value == id
  {
    if id in store then Some(id) else None
  }

  predicate Conflicts(store: Store, row: ProfileRow) {
    row.id in store || row.username in store.Values
  }

  /** Inserting a row: rejected with 23505 when its id or its username is
      taken, otherwise stored and echoed back. */
  function Insert(store: Store, row: ProfileRow): (res: (InsertReply, Store))
    ensures Conflicts(store, row) ==> res.0.error == Some(DbError(UniqueViolation)) && res.0.data.None? && res.1 == store
    ensures !Conflicts(store, row) ==> res.0 == InsertReply(Some(row), None)
    ensures !Conflicts(store, row) ==> res.1.Keys == store.Keys + {row.id} && res.1[row.id] == row.username
    ensures forall id :: id in store ==> id in res.1 && res.1[id] == store[id]
  {
    if Conflicts(store, row) then (InsertReply(None, Some(DbError(UniqueViolation))), store)
    else (InsertReply(Some(row), None), store[row.id := row.username])
  }

  /** The store's answer to an insert, as a pure oracle over one fixed state. */
  function InsertOracle(store: Store): (insert: ProfileRow -> InsertReply) {
    row => Insert(store, row).0
  }

  /** The table after a sequence of inserts is applied in order. */
  function ApplyInserts(store: Store, rows: seq<ProfileRow>): (s': Store)
    decreases |rows|
  {
    if |rows| == 0 then store else ApplyInserts(Insert(store, rows[0]).1, rows[1..])
  }

  /** Unique usernames survive any insert. */
  lemma InsertKeepsUsernamesUnique(store: Store, row: ProfileRow)
    requires UsernamesUnique(store)
    ensures UsernamesUnique(Insert(store, row).1)
  {
    if !Conflicts(store, row) {
      var s' := Insert(store, row).1;
      forall a, b | a in s' && b in s' && a != b
        ensures s'[a] != s'[b]
      {
        if a == row.id {
          assert b in store && store[b] in store.Values;
        } else if b == row.id {
          assert a in store && store[a] in store.Values;
        }
      }
    }
  }

  /** Unique usernames survive any sequence of inserts. */
  lemma {:induction false} ApplyInsertsKeepsUsernamesUnique(store: Store, rows: seq<ProfileRow>)
    requires UsernamesUnique(store)
    ensures UsernamesUnique(ApplyInserts(store, rows))
    decreases |rows|
  {
    if |rows| > 0 {
      InsertKeepsUsernamesUnique(store, rows[0]);
      ApplyInsertsKeepsUsernamesUnique(Insert(store, rows[0]).1, rows[1..]);
    }
  }

  /** No insert ever removes or changes an existing row. */
  lemma {:induction false} ApplyInsertsKeepsRows(store: Store, rows: seq<ProfileRow>)
    ensures forall id :: id in store ==> id in ApplyInserts(store, rows) && ApplyInserts(store, rows)[id] == store[id]
    decreases |rows|
  {
    if |rows| > 0 {
      ApplyInsertsKeepsRows(Insert(store, rows[0]).1, rows[1..]);
    }
  }
}

=== FILE: room_query.dfy ===
/** The `messages` table and the chat page's history query
    `eq('room_id', room).order('created_at', ascending).limit(100)`,
    stated as the store's contract. */
module RoomQuery {
  import opened Wrappers
  import opened Identity

  type RoomId = string

  /** A message row joined with its author's username (`profiles (username)`).
      `createdAt` is an abstract, totally ordered timestamp. */
  datatype ChatMessage = ChatMessage(id: string, userId: UserId, roomId: RoomId, content: string,
                                     createdAt: int, author: string)

  /** The history query's row cap. */
  const PageLimit: nat := 100

  /** `eq('room_id', room)`: the table's rows of one room, in table order. */
  function InRoom(table: seq<ChatMessage>, room: RoomId): (r: seq<ChatMessage>)
    ensures forall m :: m in r ==> m.roomId == room
    ensures forall x :: multiset(r)[x] == if x.roomId == room then multiset(table)[x] else 0
  {
    if |table| == 0 then []
    else
      var rest := InRoom(table[1..], room);
      assert table == [table[0]] + table[1..];
      if table[0].roomId == room then [table[0]] + rest else rest
  }

  predicate SortedByTime(s: seq<ChatMessage>) {
    forall i, j :: 0 <= i < j < |s| ==> s[i].createdAt <= s[j].createdAt
  }

  function InsertByTime(m: ChatMessage, s: seq<ChatMessage>): (r: seq<ChatMessage>)
    requires SortedByTime(s)
    ensures SortedByTime(r)
    ensures multiset(r) == multiset(s) + multiset{m}
  {
    if |s| == 0 || m.createdAt <= s[0].createdAt then [m] + s
    else
      var tail := InsertByTime(m, s[1..]);
      assert s == [s[0]] + s[1..];
      assert forall x :: x in tail ==> s[0].createdAt <= x.createdAt by {
        forall x | x in tail ensures s[0].createdAt <= x.createdAt {
          assert x in multiset(tail);
          assert x in multiset(s[1..]) || x == m;
        }
      }
      [s[0]] + tail
  }

  /** `order('created_at', { ascending: true })`. Ties are left in an order
      of the model's choosing, as the store leaves them unspecified. */
  function SortByTime(s: seq<ChatMessage>): (r: seq<ChatMessage>)
    ensures SortedByTime(r)
    ensures multiset(r) == multiset(s)
  {
    if |s| == 0 then []
    else
      assert s == [s[0]] + s[1..];
      InsertByTime(s[0], SortByTime(s[1..]))
  }

  /** A room's messages in ascending time order: exactly the room's rows of
      the table, each as often as it occurs there. */
  function RoomSorted(table: seq<ChatMessage>, room: RoomId): (s: seq<ChatMessage>)
    ensures SortedByTime(s)
    ensures multiset(s) == multiset(InRoom(table, room))
    ensures |s| == |InRoom(table, room)|
    ensures forall x :: x in s <==> x in table && x.roomId == room
  {
    var s := SortByTime(InRoom(table, room));
    assert |multiset(s)| == |multiset(InRoom(table, room))|;
    assert forall x :: x in s <==> x in multiset(s);
    assert forall x :: x in table <==> x in multiset(table);
    s
  }

  /** What the page's query promises: rows of the room only, ascending by
      time, as many as the room holds up to the cap, and the OLDEST ones:
      every room message left out is no older than every row returned. */
  ghost predicate IsOldestPage(table: seq<ChatMessage>, room: RoomId, rows: seq<ChatMessage>) {
    && (forall m :: m in rows ==> m.roomId == room)
    && SortedByTime(rows)
    && |rows| == Min(PageLimit, |InRoom(table, room)|)
    && multiset(rows) <= multiset(InRoom(table, room))
    && (forall i, x :: 0 <= i < |rows| && x in table && x.roomId == room && x !in rows ==> rows[i].createdAt <= x.createdAt)
  }

  /** Cutting a sorted sequence: every element left out of the front part is
      no earlier than every element kept. */
  lemma FrontIsEarliest(s: seq<ChatMessage>, k: nat)
    requires SortedByTime(s) && k <= |s|
    ensures forall i, x :: 0 <= i < k && x in s && x !in s[..k] ==> s[i].createdAt <= x.createdAt
  {
    forall i, x | 0 <= i < k && x in s && x !in s[..k]
      ensures s[i].createdAt <= x.createdAt
    {
      var j :| 0 <= j < |s| && s[j] == x;
    }
  }

  /** Cutting a sorted sequence: every element left out of the back part is
      no later than every element kept. */
  lemma BackIsLatest(s: seq<ChatMessage>, k: nat)
    requires SortedByTime(s) && k <= |s|
    ensures forall i, x :: 0 <= i < |s| - k && x in s && x !in s[k..] ==> x.createdAt <= s[k..][i].createdAt
  {
    forall i, x | 0 <= i < |s| - k && x in s && x !in s[k..]
      ensures x.createdAt <= s[k..][i].createdAt
    {
      var j :| 0 <= j < |s| && s[j] == x;
    }
  }

  lemma FrontPart(s: seq<ChatMessage>, k: nat)
    requires SortedByTime(s) && k <= |s|
    ensures SortedByTime(s[..k])
    ensures multiset(s[..k]) <= multiset(s)
    ensures forall m :: m in s[..k] ==> m in s
  {
    assert s == s[..k] + s[k..];
  }

  lemma BackPart(s: seq<ChatMessage>, k: nat)
    requires SortedByTime(s) && k <= |s|
    ensures SortedByTime(s[k..])
    ensures multiset(s[k..]) <= multiset(s)
    ensures forall m :: m in s[k..] ==> m in s
  {
    assert s == s[..k] + s[k..];
  }

  /** The query as the page issues it: ascending, then the first 100 rows,
      which are the room's oldest. */
  function RoomPage(table: seq<ChatMessage>, room: RoomId): (r: seq<ChatMessage>)
    ensures IsOldestPage(table, room, r)
  {
    var s := RoomSorted(table, room);
    var k := Min(PageLimit, |s|);
    FrontPart(s, k);
    FrontIsEarliest(s, k);
    s[..k]
  }

  /** Rows of the room only, ascending, up to the cap, and the NEWEST ones:
      every room message left out is no newer than every row returned. */
  ghost predicate IsNewestPage(table: seq<ChatMessage>, room: RoomId, rows: seq<ChatMessage>) {
    && (forall m :: m in rows ==> m.roomId == room)
    && SortedByTime(rows)
    && |rows| == Min(PageLimit, |InRoom(table, room)|)
    && multiset(rows) <= multiset(InRoom(table, room))
    && (forall i, x :: 0 <= i < |rows| && x in table && x.roomId == room && x !in rows ==> x.createdAt <= rows[i].createdAt)
  }

  /** The corrected query: ascending, then the LAST 100 rows, which are the
      room's newest. */
  function LatestRoomPage(table: seq<ChatMessage>, room: RoomId): (r: seq<ChatMessage>)
    ensures IsNewestPage(table, room, r)
  {
    var s := RoomSorted(table, room);
    var k := |s| - Min(PageLimit, |s|);
    BackPart(s, k);
    BackIsLatest(s, k);
    s[k..]
  }

  /** In a sorted sequence, a strictly newest element that occurs once sits
      at the end and nowhere else. */
  lemma UniqueNewestIsLast(s: seq<ChatMessage>, m: ChatMessage)
    requires SortedByTime(s) && m in s && multiset(s)[m] == 1
    requires forall x :: x in s && x != m ==> x.createdAt < m.createdAt
    ensures s[|s| - 1] == m
    ensures forall j :: 0 <= j < |s| - 1 ==> s[j] != m
  {
    var i :| 0 <= i < |s| && s[i] == m;
    assert s[i].createdAt <= s[|s| - 1].createdAt;
    var front := s[..|s| - 1];
    assert s == front + [m];
    assert multiset(front)[m] == 0;
    forall j | 0 <= j < |s| - 1 ensures s[j] != m {
      assert s[j] == front[j];
    }
  }

  /** As written: once a room holds more than 100 messages, a message newer
      than all others that occurs once in the table is not in the page. */
  lemma {:induction false} OldestPageMissesNewest(table: seq<ChatMessage>, room: RoomId, m: ChatMessage)
    requires m in table && m.roomId == room && multiset(table)[m] == 1
    requires forall x :: x in table && x.roomId == room && x != m ==> x.createdAt < m.createdAt
    requires |InRoom(table, room)| > PageLimit
    ensures m !in RoomPage(table, room)
  {
    var s := RoomSorted(table, room);
    assert multiset(s)[m] == 1;
    UniqueNewestIsLast(s, m);
    assert RoomPage(table, room) == s[..PageLimit];
  }

  /** Corrected: the newest message of a room is always in the page. */
  lemma {:induction false} LatestPageHasNewest(table: seq<ChatMessage>, room: RoomId, m: ChatMessage)
    requires m in table && m.roomId == room
    requires forall x :: x in table && x.roomId == room && x != m ==> x.createdAt < m.createdAt
    ensures m in LatestRoomPage(table, room)
  {
    var s := RoomSorted(table, room);
    NewestIsInBack(s, m, |s| - Min(PageLimit, |s|));
  }

  /** In a sorted sequence, an element newer than every other one lies in
      every non-empty back part. */
  lemma NewestIsInBack(s: seq<ChatMessage>, m: ChatMessage, k: nat)
    requires SortedByTime(s) && m in s && k < |s|
    requires forall x :: x in s && x != m ==> x.createdAt < m.createdAt
    ensures m in s[k..]
  {
    var j :| 0 <= j < |s| && s[j] == m;
    var last := s[|s| - 1];
    assert s[j].createdAt <= last.createdAt;
    assert s[k..][|s| - 1 - k] == s[|s| - 1];
  }
}

=== FILE: services_page.dfy ===
/** The services list page: loading the listings and what each card shows. */
module ServicesPage {
  import opened Wrappers
  import Categories

  /** An `ai_services` row; `features` may be null. */
  datatype Service = Service(id: string, name: string, category: string, url: string, features: Option<seq<string>>)

  datatype ServicesState = ServicesState(services: seq<Service>, loading: bool)

  /** The state the page mounts with. */
  function InitialState(): (s: ServicesState)
    ensures s.services == [] && s.loading
  {
    ServicesState([], true)
  }

  /** `fetchServices` given the read's reply (`Threw` covers a returned error,
      which the page re-throws): failure keeps the list, null data empties it,
      and the spinner always stops. */
  function FetchServices(s: ServicesState, reply: Remote<Option<seq<Service>>>): (r: ServicesState)
    ensures !r.loading
    ensures reply.Threw? ==> r.services == s.services
    ensures reply.Returned? ==> r.services == reply.value.GetOr([])
  {
    match reply
    case Threw => s.(loading := false)
    case Returned(data) => ServicesState(data.GetOr([]), false)
  }

  /** Number of features a card lists at most. */
  const FeaturePreview: nat := 3

  /** The card's feature block: absent for a null or empty list, otherwise the
      first three features (fewer if the list is shorter) in order. */
  function FeatureBlock(features: Option<seq<string>>): (r: Option<seq<string>>)
    ensures r.Some? <==> features.Some? && |features.value| > 0
    ensures r.Some? ==> |r.value| == Min(FeaturePreview, |features.value|)
    ensures r.Some? ==> r.value <= features.value
  {
    if features.Some? && |features.value| > 0 then
      Some(features.value[..Min(FeaturePreview, |features.value|)])
    else None
  }

  /** What one service card shows. */
  datatype Card = Card(serviceId: string, color: string, features: Option<seq<string>>, editLink: Option<string>, detailLink: string)

  /** The page body: a spinner, the empty notice, or one card per service. */
  datatype Body = Spinner | NoServices | Grid(cards: seq<Card>)

  datatype Page = Page(addLink: bool, body: Body)

  function RenderCard(s: Service, signedIn: bool): (c: Card)
    ensures c.serviceId == s.id
    ensures c.editLink.Some? <==> signedIn
    ensures c.editLink.Some? ==> c.editLink.value == "/services/edit/" + s.id
    ensures c.detailLink == "/services/" + s.id
    ensures c.color == Categories.CategoryColor(s.category)
    ensures c.features == FeatureBlock(s.features)
  {
    Card(s.id, Categories.CategoryColor(s.category), FeatureBlock(s.features),
         if signedIn then Some("/services/edit/" + s.id) else None, "/services/" + s.id)
  }

  /** The page for a state and a sign-in status. */
  function Render(st: ServicesState, signedIn: bool): (p: Page)
    ensures p.addLink == signedIn
    ensures p.body.Spinner? <==> st.loading
    ensures p.body.NoServices? <==> !st.loading && st.services == []
    ensures p.body.Grid? ==> |p.body.cards| == |st.services|
    ensures p.body.Grid? ==> forall i :: 0 <= i < |st.services| ==> p.body.cards[i] == RenderCard(st.services[i], signedIn)
  {
    if st.loading then Page(signedIn, Spinner)
    else if |st.services| == 0 then Page(signedIn, NoServices)
    else Page(signedIn, Grid(seq(|st.services|, i requires 0 <= i < |st.services| => RenderCard(st.services[i], signedIn))))
  }

  /** What a load shows: the empty notice exactly when the read returned null
      or no rows, or failed while the list was empty (always the case on the
      page's first load); otherwise one card per returned service, in order. */
  lemma LoadThenRender(s: ServicesState, reply: Remote<Option<seq<Service>>>, signedIn: bool)
    ensures var p := Render(FetchServices(s, reply), signedIn);
      && !p.body.Spinner?
      && (p.body.NoServices? <==>
            (reply.Returned? && (reply.value.None? || reply.value.value == []))
            || (reply.Threw? && s.services == []))
      && (reply.Returned? && p.body.Grid? ==>
            |p.body.cards| == |reply.value.value|
            && forall i :: 0 <= i < |p.body.cards| ==> p.body.cards[i] == RenderCard(reply.value.value[i], signedIn))
    ensures var p := Render(FetchServices(InitialState(), reply), signedIn);
      p.body.NoServices? <==> reply.Threw? || reply.value.None? || reply.value.value == []
  {
  }

  /** The add link and every edit link appear together: all when signed in,
      none otherwise. */
  lemma LinksFollowSignIn(st: ServicesState, signedIn: bool)
    ensures var p := Render(st, signedIn);
      p.body.Grid? ==> forall i :: 0 <= i < |p.body.cards| ==> (p.body.cards[i].editLink.Some? <==> p.addLink)
  {
  }
}

=== FILE: wrappers.dfy ===
/** Small shared pieces every page model uses: the failure-carrying
    datatypes `Option` and `Remote`, and the count helper `Min`. */
module Wrappers {

  /** A value that may be absent: JavaScript's `null` / `undefined`. */
  datatype Option<+T> = None | Some(value: T) {

    /** The value, or `default` when absent (JavaScript's `x || default` on lists). */
    function GetOr(default: T): (r: T)
      ensures Some? ==> r == value
      ensures None? ==> r == default
    {
      match this
      case Some(v) => v
      case None => default
    }
  }

  /** The outcome of one awaited remote call: it either returned a value or it
      threw (a rejected promise, or an error the caller re-throws). */
  datatype Remote<+T> = Returned(value: T) | Threw

  /** The smaller of two counts: how many rows or items survive a cap. */
  function Min(a: nat, b: nat): (r: nat)
    ensures r <= a && r <= b
    ensures r == a || r == b
  {
    if a <= b then a else b
  }
}
